=== FILE: README.md ===
# CyberArk API command harness — a verified model

This project models the decision logic of a small Go command-line harness
for the CyberArk Password Vault REST API. The model covers four parts:

- **Configuration loader** (`loadConfig`, `checkFilePermissions`). It expands a
  leading `~`, requires permission bits of exactly 0600, reads and decodes the
  JSON file, and requires a non-empty `api_secret` and then a non-empty
  `base_url`. The file system, the home directory, `filepath.Join` and the JSON
  decoder are oracles in an `Env` record. `LoadConfig` is a pure function that
  returns `Result<Config, ConfigError>`, with one error constructor per stage.
- **Workflow registry** (`RegisterWorkflow`). A `map<string, Handler>` with
  last-write-wins registration. The `init`-time registrations are a sequence of
  calls applied in order.
- **Dispatcher** (`main`, `verifyConnectivity`). A linear decision procedure
  over the parsed global flags. It handles help, the missing workflow name,
  config loading, the built-in `verify`, registry lookup and handler execution.
  The result is an `Outcome` that records the exit status, whether
  `loadConfig` was called (`configRead`, whatever it returned), whether usage
  was printed, what ran (and with which arguments),
  and which error went to which stream.
- **API client** (`NewAPIClient`, `Get`, `Post`, `Put`, `Delete`). This part
  covers URL construction, the default timeout, the two fixed headers, the
  order of error checks and the 2xx success window. `net/http` is a `Transport`
  oracle, and JSON marshalling arrives as its result. Each call returns the
  request it sent, if any, along with its result.

Files: `wrappers.dfy` (Option/Result), `primitives.dfy` (Go's 64-bit
integers, assuming a 64-bit platform, and bytes, module `Primitives`), `config.dfy` (module `ConfigLoader`),
`workflows.dfy` (module `Workflows`), `dispatch.dfy` (module `Dispatcher`),
`api_client.dfy` (module `ApiClient`).

Three behaviours of the code are easy to misread:

- The "workflow name required" message is printed to standard output with
  `fmt.Println`, not to the error stream (main.go:186). The model records it
  as `Diagnostic(Stdout, MissingWorkflowName)`.
- `loadConfig` insists on 0600 on every platform. The Windows relaxation
  exists only in `checkFilePermissions`, and nothing calls that function.
  `PermissionCheckMatchesLoader` relates the two off Windows.
- `verify` is dispatched by a hard-coded comparison before the registry
  lookup, so a handler registered as `verify` can never run.

## Model

| member | source | states |
|---|---|---|
| ConfigLoader.ExpandPath | main.go:50-56 | Only a non-empty path starting with `~` is rewritten, to `join(home, path[1:])`. Any other path, including the empty one, is returned unchanged without asking for the home directory. A home-directory failure is the only possible error. |
| ConfigLoader.Validate | main.go:87-96 | Validation succeeds iff the secret and the base URL are both non-empty, and it then returns the record unchanged. An empty secret is reported first. `MissingBaseUrl` is returned exactly when the secret is present and the base URL is empty. |
| ConfigLoader.LoadConfig | main.go:47-97 | Success iff all seven stages (expand, stat, 0600 permissions, read, parse, secret, base URL) accept. A failure's error belongs to the first stage that rejects, and every earlier stage accepted. A success returns the decoded record, with non-empty secret and base URL. A permission error reports the actual bits, which are not 0600. Home-directory, stat, read and parse errors carry exactly the error the environment reported. |
| ConfigLoader.PermBits | main.go:67 | The permission bits are the low nine bits of the mode word. They differ from the mode by a multiple of 512 and equal it when the mode has no higher bits. |
| ConfigLoader.PassesFirst | main.go:50-93 | Stages 0 to n-1 (expand, stat, 0600, read, parse, secret, base URL) all accept, and acceptance of the first n stages implies acceptance of the first n-1. This is the stage order `LoadConfig` is measured against. |
| ConfigLoader.TildeLoadsJoinedPath | main.go:50-60 | When the home directory is available as `h` and `join(h, rest)` does not itself start with `~`, loading `~` followed by `rest` behaves exactly like loading `join(h, rest)`. Without the second condition the joined path is expanded a second time, so `~/.x` need not load like `home + "/.x"` when the home directory starts with `~`. |
| ConfigLoader.WrongPermissionsIgnoreContent | main.go:67-85 | Once the permission stage rejects, the result is the same for any file contents and any decoder. The file is never consulted. |
| ConfigLoader.SecretCheckedBeforeBaseUrl | main.go:88-93 | A decoded record with both required fields empty is reported as a missing `api_secret`. |
| ConfigLoader.CheckFilePermissions | main.go:230-244 | Returns an error iff stat fails, or the bits are not 0600 and the OS is not Windows. A stat error is passed through unchanged. |
| ConfigLoader.PermissionCheckMatchesLoader | main.go:60-70 | Off Windows, `checkFilePermissions` on the expanded path accepts exactly when `loadConfig` gets past its permission stage. |
| Workflows.Register | main.go:40-42 | After registration the name maps to the new handler. The key set gains only that name, and every other entry is unchanged. |
| Workflows.Lookup | main.go:215 | Lookup finds a handler iff the name is registered, and then returns the registered handler. |
| Workflows.LookupAfterRegister | main.go:40-42 | Looking up a name just registered gives its handler. Lookups of other names are unaffected. |
| Workflows.RegisterLastWins | main.go:40-42 | Registering the same name twice leaves only the second handler. |
| Workflows.RegisterCommutes | main.go:40-42 | Registrations under distinct names give the same registry in either order. |
| Workflows.RegisterAll | main.go:36-42 | Running the `init`-time `RegisterWorkflow` calls in order leaves exactly the starting names plus every registered name as keys. |
| Workflows.LastRegistered | main.go:40-42 | A last registration for a name exists iff some call registers that name, and it is then the handler of a call for that name after which no call registers the name again. |
| Workflows.RegisterAllLookup | main.go:36-42 | After a sequence of registrations, looking up a name gives the handler of the last call for that name. If no call registered it, the lookup gives what the registry held before. |
| Workflows.StartupRegistry | list_accounts.go:76-80 | The registry `main` sees holds exactly `list-accounts`, bound to the list-accounts handler, and has no `verify` entry. |
| Dispatcher.VerifyConnectivity | main.go:122-152 | Without `--help`, the check prints `Base URL: <base url>` and the fixed line `API Secret: [REDACTED]`. |
| Dispatcher.VerifyNeverShowsSecret | main.go:141-143 | The check's output does not depend on the secret. |
| Dispatcher.DefaultConfigUnderHome | main.go:162-163 | Without `--config`/`-c`, the path loaded is the home directory joined with `/.cyberark_api`. |
| Dispatcher.Main | main.go:154-227 | The exit status is 0 or 1, and it is 0 iff no error is reported. `loadConfig` is called iff help is off and a name is given. Anything runs only after a successful load. `verify` runs only for that name. A handler runs only for a registered name other than `verify`, and then it is that name's handler and it receives `args[1:]`. |
| Dispatcher.HelpNeverLoadsConfig | main.go:174-178 | With the help flag the outcome is exit 0 with usage printed, `loadConfig` is never called and nothing runs. The outcome does not depend on the environment, the arguments, the registry or the workflows. |
| Dispatcher.MissingNameFails | main.go:184-189 | With no positional argument: exit 1, usage printed, the error goes to stdout, `loadConfig` is never called and nothing runs. |
| Dispatcher.ConfigFailureStopsDispatch | main.go:194-201 | A failed config load gives exit 1 and reports the load error on stderr. No handler runs, and the outcome does not depend on the registry or the workflows, so an unknown name fails the same way. |
| Dispatcher.VerifyIsBuiltIn | main.go:203-210 | `verify` runs the built-in check and exits 0. The outcome is the same even when a handler is registered under `verify`. |
| Dispatcher.UnknownWorkflowRunsNothing | main.go:212-220 | A name that is neither `verify` nor registered gives exit 1, usage printed and an unknown-workflow error on stderr. No handler runs. |
| Dispatcher.HandlerExitStatus | main.go:222-226 | A registered handler runs with exactly `args[1:]`. The exit status is 1 iff its `Execute` returns an error, and that error is reported on stderr. |
| Dispatcher.ListAccountsDispatches | list_accounts.go:76-80 | With the shipped registry, `list-accounts` runs the list-accounts handler with the remaining arguments. |
| ApiClient.NewClient | api_client.go:22-39 | The client keeps the configuration. A positive configured timeout is used as is, and anything else becomes 30 seconds. |
| ApiClient.WrappedTimeout | api_client.go:31-33 | The duration as written is congruent to seconds times 10^9 modulo 2^64 (two's-complement wrap), and equals that product whenever it fits in 64 bits. |
| ApiClient.HugeTimeoutWrapsNegative | api_client.go:24-33 | A configured timeout of 9223372037 s passes the positivity test, but its duration wraps to a negative value. |
| ApiClient.HugeTimeoutWrapsTiny | api_client.go:24-33 | A configured timeout of 18446744074 s (about 584 years) wraps to 290448384 ns, under a third of a second. |
| ApiClient.TimeoutNanos | api_client.go:31-33 | The corrected duration, which the model hands to the transport: always positive and never more than seconds times 10^9, equal to that product or to the largest duration when the product does not fit. The code itself hands over the wrapping `WrappedTimeout`. |
| ApiClient.TimeoutNanosMonotone | api_client.go:24-33 | For the corrected saturating duration (`TimeoutNanos`), a longer configured timeout never gives a shorter one. The code's wrapping duration (`WrappedTimeout`) is not monotone: 9223372036 s gives a positive duration, 9223372037 s a negative one. |
| ApiClient.RequestUrl | api_client.go:46 | The URL is the base URL, one `/`, then the endpoint, with nothing normalised or encoded: its length is the sum and each part can be read back at its position. |
| ApiClient.RequestHeaders | api_client.go:57-58 | Exactly two headers: `Authorization` set to the raw secret with no scheme prefix, and `Content-Type: application/json`. |
| ApiClient.BuildRequest | api_client.go:46-58 | A request is built iff `http.NewRequest` accepts the URL, and a rejection becomes a build error. The built request has the given method and body, the URL base URL + `/` + endpoint, and exactly two headers: `Authorization` set to the raw secret and `Content-Type: application/json`. |
| ApiClient.ReadReply | api_client.go:61-80 | Judges a reply by `ReadRules`: success iff a response arrives, its body reads without error and 200 ≤ status < 300, and the result is then exactly the bytes read. A transport error becomes a request error. A read error wins over any status. A clean read with a non-2xx status carries both the code and the body. |
| ApiClient.Exchange | api_client.go:46-80 | A request is sent iff `http.NewRequest` accepts the URL, and then it has the given method and body, the joined URL and the two headers. A rejected URL gives a build error carrying the rejection. The reply the transport gives for the sent request is judged by `ReadRules`: a transport error gives a request error, a read error gives a read error whatever the status, a clean non-2xx reply gives the status and body, and a clean 2xx reply gives exactly the bytes read. |
| ApiClient.Get | api_client.go:43-81 | A GET request, if sent, is well formed and has no body, and it is sent iff the URL is accepted; otherwise a build error is returned. The call succeeds iff the reply is a 2xx response whose body read cleanly, and it returns exactly those bytes. A clean non-2xx reply gives an error with both the status code and the body; transport and read errors follow `ReadRules`. |
| ApiClient.Post | api_client.go:86-126 | A marshal failure returns a marshal error and sends nothing. Otherwise the same rules as Get apply, including the status-and-body error for a non-2xx reply, with the POST method and the marshalled bytes as the body. |
| ApiClient.Put | api_client.go:129-161 | The same rules as Post, with the PUT method: marshal failure first, then build, then the reply judged by `ReadRules`, with a non-2xx reply carrying status and body. |
| ApiClient.Delete | api_client.go:164-187 | A DELETE request, if sent, is well formed and has no body. It is sent iff `http.NewRequest` accepts the URL, with a build error otherwise, and a transport error becomes a request error. The call succeeds iff the reply is a 2xx response, whatever happens reading the body. A non-2xx status reports the code and whatever bytes were read, even when the read failed. |
| ApiClient.SameAddressForAllVerbs | api_client.go:43-58 | All four methods send the same URL and headers. They differ only in method and body. |
| ApiClient.ReadFailureOnlyMattersForReaders | api_client.go:69-78 | On a 2xx status with a failed body read, Get fails with a read error and Delete succeeds. |
| ApiClient.NotFoundScenario | api_client.go:76-78 | A 404 reply with body "not found" gives an error that carries 404 and that body, for Get and for Delete. |
| ApiClient.NoContentScenario | api_client.go:76-80 | A 204 reply with an empty body is a success. |

## Left out

- Global and per-workflow flag parsing (`flag` package) is left out. `main` starts from a `CommandLine` that is already parsed. For `verify`, whether its flag set saw `--help` is an oracle (`Workers.verifyWantsHelp`). The `ExitOnError` exit on a malformed flag is not modelled.
- `printUsage` output is not modelled. It iterates over a Go map in nondeterministic order. Only the fact that usage was printed is recorded.
- Exact message texts and `%w` wrapping are left out. Each error is a constructor that carries the underlying message or value.
- `os.Stat`, `ioutil.ReadFile`, `os.UserHomeDir`, `filepath.Join` and `json.Unmarshal` are oracles in `Env`. `filepath.Join`'s path cleaning is not modelled.
- `os.Exit` is the `exitCode` field. `runtime.GOOS` is a boolean parameter of `CheckFilePermissions`.
- `net/http` (connections, redirects, real timeouts) is the `Transport` oracle. Closing the response body with `defer resp.Body.Close()` is not modelled.
- JSON marshalling of a payload is passed in as its result.
- The list-accounts workflow's `Execute` only parses flags and prints. Its API call is a stub, so its behaviour belongs to the `Workers.execute` oracle. Its registration is modelled.
- A handler's `Help()` text is stored in `Handler` and nothing else. `main` never calls it.
- ApiClient.TimeoutNanos: the request path uses the corrected, saturating duration instead of the wrapping one the code computes (see Findings). `WrappedTimeout` models the code as written.

## Findings

| source | as written | input that shows it | evidently intended | confidence | as-written member | corrected member |
|---|---|---|---|---|---|---|
| api_client.go:31-33 | `time.Duration(timeout) * time.Second` is computed in 64-bit signed arithmetic and wraps on overflow | On 64-bit platforms (where Go's `int` is 64 bits wide), `"timeout": 9223372037` passes the `> 0` test, but the duration wraps to -9223372036709551616 ns, and `http.Client` treats a non-positive timeout as no timeout. `"timeout": 18446744074` wraps to 290448384 ns, a 0.29 s timeout | a positive configured timeout should give a positive client timeout | medium, not executed | ApiClient.WrappedTimeout (counterexamples: ApiClient.HugeTimeoutWrapsNegative, ApiClient.HugeTimeoutWrapsTiny) | ApiClient.TimeoutNanos |

=== FILE: api_client.dfy ===
/**
 The HTTP client wrapper (api_client.go): `NewAPIClient` and the four
 request methods.

 `net/http` is an oracle (`Transport`): it either rejects the URL when the
 request is built, or, given a request and the client timeout, returns a
 transport error or a status code together with what `ioutil.ReadAll` would
 get from the body. JSON marshalling of a payload arrives as its result.
 Every call reports the request it sent, if any, beside its result.
 */
module ApiClient {
  import opened Wrappers
  import opened Primitives
  import opened ConfigLoader

  /** The timeout `NewAPIClient` uses when the configuration gives none. */
  const DefaultTimeoutSeconds: int := 30

  /** `time.Second` in nanoseconds. */
  const NanosPerSecond: int := 1_000_000_000

  /** An `APIClient`: the configuration and the client-wide timeout in seconds. */
  datatype Client = Client(config: Config, timeoutSeconds: PositiveInt64)

  /** `NewAPIClient`: a positive configured timeout is kept, anything else becomes 30 seconds. */
  function NewClient(config: Config): (c: Client)
    ensures c.config == config
    ensures config.timeout > 0 ==> c.timeoutSeconds == config.timeout
    ensures config.timeout <= 0 ==> c.timeoutSeconds == DefaultTimeoutSeconds
  {
    Client(config, if config.timeout > 0 then config.timeout else DefaultTimeoutSeconds)
  }

  /** 2^64: a `time.Duration` is a 64-bit signed count of nanoseconds. */
  const TwoTo64: int := 0x1_0000_0000_0000_0000

  /** Two's-complement wrap into 64 bits, as Go's `int64` multiplication does. */
  function Wrap64(x: int): (r: Int64)
    ensures (r - x) % TwoTo64 == 0
  {
    var m := x % TwoTo64;
    if m <= MaxInt64 then m else m - TwoTo64
  }

  /** `time.Duration(timeout) * time.Second` as written: it wraps when the product leaves 64 bits. */
  function WrappedTimeout(seconds: PositiveInt64): (d: Int64)
    ensures (d - seconds * NanosPerSecond) % TwoTo64 == 0
    ensures seconds * NanosPerSecond <= MaxInt64 ==> d == seconds * NanosPerSecond
  {
    Wrap64(seconds * NanosPerSecond)
  }

  /**
   A configured timeout of 9223372037 seconds passes `NewAPIClient`'s
   positivity test, but its duration wraps to a negative value, which
   `http.Client` treats as no timeout at all.
   */
  lemma HugeTimeoutWrapsNegative()
    ensures var c := NewClient(Config("s", "https://h/api", "", 9223372037));
      c.timeoutSeconds == 9223372037 && WrappedTimeout(c.timeoutSeconds) < 0
  {
    var c := NewClient(Config("s", "https://h/api", "", 9223372037));
    assert c.timeoutSeconds * NanosPerSecond == 9223372037000000000;
    assert 9223372037000000000 % TwoTo64 == 9223372037000000000;
  }

  /**
   A configured timeout of 18446744074 seconds (about 584 years) wraps to
   290448384 nanoseconds: the client gives up after under a third of a
   second.
   */
  lemma HugeTimeoutWrapsTiny()
    ensures var c := NewClient(Config("s", "https://h/api", "", 18446744074));
      c.timeoutSeconds == 18446744074 && WrappedTimeout(c.timeoutSeconds) == 290448384
  {
    var c := NewClient(Config("s", "https://h/api", "", 18446744074));
    assert c.timeoutSeconds * NanosPerSecond == 18446744074000000000;
    assert 18446744074000000000 % TwoTo64 == 18446744074000000000 - TwoTo64;
  }

  /** The client timeout in nanoseconds, saturating at the largest `time.Duration` instead of wrapping. */
  function TimeoutNanos(seconds: PositiveInt64): (d: Int64)
    ensures d > 0
    ensures d <= seconds * NanosPerSecond
    ensures d == seconds * NanosPerSecond || d == MaxInt64
  {
    if seconds > MaxInt64 / NanosPerSecond then MaxInt64 else seconds * NanosPerSecond
  }

  /**
   For the corrected, saturating duration a longer configured timeout never
   gives a shorter one. The wrapping duration of the code is not monotone.
   */
  lemma TimeoutNanosMonotone(a: PositiveInt64, b: PositiveInt64)
    requires a <= b
    ensures TimeoutNanos(a) <= TimeoutNanos(b)
  {
  }

  /** The HTTP methods the client uses. */
  datatype Verb = GET | POST | PUT | DELETE

  /** A built request: method, URL, header map and optional body. */
  datatype Request = Request(verb: Verb, url: string, headers: map<string, string>, body: Option<seq<byte>>)

  /** What `ioutil.ReadAll` returns: the bytes read before it stopped, and its error. */
  datatype ReadOutcome = ReadOutcome(data: seq<byte>, err: Option<string>)

  /** What `httpClient.Do` returns. */
  datatype Reply = TransportError(err: string) | Response(status: int, body: ReadOutcome)

  /**
   `net/http`: `newRequest` gives the error `http.NewRequest` reports for a
   method and URL, if any; `send` performs a request under a timeout in
   nanoseconds.
   */
  datatype Transport = Transport(
    newRequest: (Verb, string) -> Option<string>,
    send: (Int64, Request) -> Reply)

  datatype ApiError =
    | MarshalFailed(err: string)
    | RequestBuildFailed(err: string)
    | RequestFailed(err: string)
    | ReadFailed(err: string)
    | StatusError(status: int, body: seq<byte>)

  /** The request sent (None when the call stopped before sending) and the call's result. */
  datatype Call<T> = Call(sent: Option<Request>, result: Result<T, ApiError>)

  /** The success window for status codes. */
  predicate IsSuccessStatus(status: int)
  {
    200 <= status < 300
  }

  /** The URL is the base URL, one slash, then the endpoint, with nothing normalised. */
  predicate Addressed(client: Client, endpoint: string, url: string)
  {
    var base := client.config.baseUrl;
    |url| == |base| + 1 + |endpoint| &&
    url[..|base|] == base && url[|base|] == '/' && url[|base| + 1..] == endpoint
  }

  /** Exactly two headers: the raw secret as `Authorization`, and the JSON content type. */
  predicate Authorized(client: Client, headers: map<string, string>)
  {
    headers.Keys == {"Authorization", "Content-Type"} &&
    headers["Authorization"] == client.config.apiSecret &&
    headers["Content-Type"] == "application/json"
  }

  /** The `fmt.Sprintf("%s/%s", BaseURL, endpoint)` every method starts with. */
  function RequestUrl(client: Client, endpoint: string): (url: string)
    ensures Addressed(client, endpoint, url)
  {
    client.config.baseUrl + "/" + endpoint
  }

  /** The headers after `Header.Set("Authorization", …)` and `Header.Set("Content-Type", …)`. */
  function RequestHeaders(client: Client): (h: map<string, string>)
    ensures Authorized(client, h)
  {
    map["Authorization" := client.config.apiSecret, "Content-Type" := "application/json"]
  }

  /** `http.NewRequest` followed by the two `Header.Set` calls. */
  function BuildRequest(client: Client, verb: Verb, endpoint: string, body: Option<seq<byte>>, t: Transport)
    : (r: Result<Request, ApiError>)
    ensures r.Success? <==> t.newRequest(verb, RequestUrl(client, endpoint)).None?
    ensures r.Failure? ==> r.error == RequestBuildFailed(t.newRequest(verb, RequestUrl(client, endpoint)).value)
    ensures r.Success? ==>
      r.value.verb == verb && r.value.body == body &&
      Addressed(client, endpoint, r.value.url) && Authorized(client, r.value.headers)
  {
    var url := RequestUrl(client, endpoint);
    match t.newRequest(verb, url)
    case Some(e) => Failure(RequestBuildFailed(e))
    case None => Success(Request(verb, url, RequestHeaders(client), body))
  }

  /** The reply the transport gives for `req` under the client's timeout. */
  function Send(client: Client, req: Request, t: Transport): (reply: Reply)
  {
    t.send(TimeoutNanos(client.timeoutSeconds), req)
  }

  /**
   How Get, Post and Put judge a reply: a transport error, then a body-read
   error (whatever the status), then the 2xx window; on success, exactly the
   bytes read.
   */
  predicate ReadRules(reply: Reply, result: Result<seq<byte>, ApiError>)
  {
    (result.Success? <==> reply.Response? && reply.body.err.None? && IsSuccessStatus(reply.status)) &&
    (result.Success? ==> result.value == reply.body.data) &&
    (reply.TransportError? ==> result == Failure(RequestFailed(reply.err))) &&
    (reply.Response? && reply.body.err.Some? ==> result == Failure(ReadFailed(reply.body.err.value))) &&
    (reply.Response? && reply.body.err.None? && !IsSuccessStatus(reply.status) ==>
       result == Failure(StatusError(reply.status, reply.body.data)))
  }

  /** The reply handling Get, Post and Put share. */
  function ReadReply(reply: Reply): (r: Result<seq<byte>, ApiError>)
    ensures ReadRules(reply, r)
  {
    match reply
    case TransportError(e) => Failure(RequestFailed(e))
    case Response(status, body) =>
      if body.err.Some? then Failure(ReadFailed(body.err.value))
      else if status < 200 || status >= 300 then Failure(StatusError(status, body.data))
      else Success(body.data)
  }

  /** Every request a call sends has the right method, URL and headers. */
  predicate SentWellFormed<T>(c: Call<T>, client: Client, verb: Verb, endpoint: string)
  {
    c.sent.Some? ==>
      c.sent.value.verb == verb &&
      Addressed(client, endpoint, c.sent.value.url) &&
      Authorized(client, c.sent.value.headers)
  }

  /** Build, send and read: the path Get, Post and Put share once a body is in hand. */
  function Exchange(client: Client, verb: Verb, endpoint: string, body: Option<seq<byte>>, t: Transport)
    : (r: Call<seq<byte>>)
    ensures r.sent.Some? <==> t.newRequest(verb, RequestUrl(client, endpoint)).None?
    ensures SentWellFormed(r, client, verb, endpoint)
    ensures r.sent.Some? ==> r.sent.value.body == body
    ensures r.sent.None? ==> r.result == Failure(RequestBuildFailed(t.newRequest(verb, RequestUrl(client, endpoint)).value))
    ensures r.sent.Some? ==> ReadRules(Send(client, r.sent.value, t), r.result)
  {
    match BuildRequest(client, verb, endpoint, body, t)
    case Failure(e) => Call(None, Failure(e))
    case Success(req) => Call(Some(req), ReadReply(Send(client, req, t)))
  }

  /** `Get`: no body; the response bytes on a 2xx status. */
  function Get(client: Client, endpoint: string, t: Transport): (r: Call<seq<byte>>)
    ensures SentWellFormed(r, client, GET, endpoint)
    ensures r.sent.Some? ==> r.sent.value.body.None?
    ensures r.result.Success? <==>
      r.sent.Some? && Send(client, r.sent.value, t).Response? &&
      Send(client, r.sent.value, t).body.err.None? && IsSuccessStatus(Send(client, r.sent.value, t).status)
    ensures r.result.Success? ==> r.result.value == Send(client, r.sent.value, t).body.data
    ensures r.sent.Some? <==> t.newRequest(GET, RequestUrl(client, endpoint)).None?
    ensures r.sent.None? ==> r.result == Failure(RequestBuildFailed(t.newRequest(GET, RequestUrl(client, endpoint)).value))
    ensures r.sent.Some? && Send(client, r.sent.value, t).Response? && Send(client, r.sent.value, t).body.err.None? &&
            !IsSuccessStatus(Send(client, r.sent.value, t).status) ==>
      r.result == Failure(StatusError(Send(client, r.sent.value, t).status, Send(client, r.sent.value, t).body.data))
    ensures r.sent.Some? ==> ReadRules(Send(client, r.sent.value, t), r.result)
  {
    Exchange(client, GET, endpoint, None, t)
  }

  /** `Post`: marshal first; a marshal failure stops before any request is built. */
  function Post(client: Client, endpoint: string, payload: Result<seq<byte>, string>, t: Transport)
    : (r: Call<seq<byte>>)
    ensures SentWellFormed(r, client, POST, endpoint)
    ensures payload.Failure? ==> r == Call(None, Failure(MarshalFailed(payload.error)))
    ensures r.sent.Some? ==> payload.Success? && r.sent.value.body == Some(payload.value)
    ensures r.result.Success? <==>
      r.sent.Some? && Send(client, r.sent.value, t).Response? &&
      Send(client, r.sent.value, t).body.err.None? && IsSuccessStatus(Send(client, r.sent.value, t).status)
    ensures r.result.Success? ==> r.result.value == Send(client, r.sent.value, t).body.data
    ensures payload.Success? ==> (r.sent.Some? <==> t.newRequest(POST, RequestUrl(client, endpoint)).None?)
    ensures payload.Success? && r.sent.None? ==>
      r.result == Failure(RequestBuildFailed(t.newRequest(POST, RequestUrl(client, endpoint)).value))
    ensures r.sent.Some? && Send(client, r.sent.value, t).Response? && Send(client, r.sent.value, t).body.err.None? &&
            !IsSuccessStatus(Send(client, r.sent.value, t).status) ==>
      r.result == Failure(StatusError(Send(client, r.sent.value, t).status, Send(client, r.sent.value, t).body.data))
    ensures r.sent.Some? ==> ReadRules(Send(client, r.sent.value, t), r.result)
  {
    match payload
    case Failure(e) => Call(None, Failure(MarshalFailed(e)))
    case Success(data) => Exchange(client, POST, endpoint, Some(data), t)
  }

  /** `Put`: as `Post`, with the PUT method. */
  function Put(client: Client, endpoint: string, payload: Result<seq<byte>, string>, t: Transport)
    : (r: Call<seq<byte>>)
    ensures SentWellFormed(r, client, PUT, endpoint)
    ensures payload.Failure? ==> r == Call(None, Failure(MarshalFailed(payload.error)))
    ensures r.sent.Some? ==> payload.Success? && r.sent.value.body == Some(payload.value)
    ensures r.result.Success? <==>
      r.sent.Some? && Send(client, r.sent.value, t).Response? &&
      Send(client, r.sent.value, t).body.err.None? && IsSuccessStatus(Send(client, r.sent.value, t).status)
    ensures r.result.Success? ==> r.result.value == Send(client, r.sent.value, t).body.data
    ensures payload.Success? ==> (r.sent.Some? <==> t.newRequest(PUT, RequestUrl(client, endpoint)).None?)
    ensures payload.Success? && r.sent.None? ==>
      r.result == Failure(RequestBuildFailed(t.newRequest(PUT, RequestUrl(client, endpoint)).value))
    ensures r.sent.Some? && Send(client, r.sent.value, t).Response? && Send(client, r.sent.value, t).body.err.None? &&
            !IsSuccessStatus(Send(client, r.sent.value, t).status) ==>
      r.result == Failure(StatusError(Send(client, r.sent.value, t).status, Send(client, r.sent.value, t).body.data))
    ensures r.sent.Some? ==> ReadRules(Send(client, r.sent.value, t), r.result)
  {
    match payload
    case Failure(e) => Call(None, Failure(MarshalFailed(e)))
    case Success(data) => Exchange(client, PUT, endpoint, Some(data), t)
  }

  /**
   `Delete`: no body and no result value. The body is only read on a non-2xx
   status, and a read error there is ignored: the error carries whatever was
   read.
   */
  function Delete(client: Client, endpoint: string, t: Transport): (r: Call<()>)
    ensures SentWellFormed(r, client, DELETE, endpoint)
    ensures r.sent.Some? ==> r.sent.value.body.None?
    ensures r.result.Success? <==>
      r.sent.Some? && Send(client, r.sent.value, t).Response? && IsSuccessStatus(Send(client, r.sent.value, t).status)
    ensures r.sent.Some? && Send(client, r.sent.value, t).Response? && !IsSuccessStatus(Send(client, r.sent.value, t).status) ==>
      r.result == Failure(StatusError(Send(client, r.sent.value, t).status, Send(client, r.sent.value, t).body.data))
    ensures r.sent.Some? <==> t.newRequest(DELETE, RequestUrl(client, endpoint)).None?
    ensures r.sent.None? ==> r.result == Failure(RequestBuildFailed(t.newRequest(DELETE, RequestUrl(client, endpoint)).value))
    ensures r.sent.Some? && Send(client, r.sent.value, t).TransportError? ==>
      r.result == Failure(RequestFailed(Send(client, r.sent.value, t).err))
  {
    match BuildRequest(client, DELETE, endpoint, None, t)
    case Failure(e) => Call(None, Failure(e))
    case Success(req) =>
      var result :=
        match Send(client, req, t)
        case TransportError(e) => Failure(RequestFailed(e))
        case Response(status, body) =>
          if status < 200 || status >= 300 then Failure(StatusError(status, body.data))
          else Success(());
      Call(Some(req), result)
  }

  /**
   The four methods address the same URL with the same headers; they differ
   only in the method and the body.
   */
  lemma SameAddressForAllVerbs(client: Client, endpoint: string, payload: seq<byte>, t: Transport)
    requires forall v: Verb :: t.newRequest(v, RequestUrl(client, endpoint)).None?
    ensures var g := Get(client, endpoint, t).sent;
      var p := Post(client, endpoint, Success(payload), t).sent;
      var u := Put(client, endpoint, Success(payload), t).sent;
      var d := Delete(client, endpoint, t).sent;
      g.Some? && p.Some? && u.Some? && d.Some? &&
      p.value == g.value.(verb := POST, body := Some(payload)) &&
      u.value == g.value.(verb := PUT, body := Some(payload)) &&
      d.value == g.value.(verb := DELETE)
  {
    assert t.newRequest(GET, RequestUrl(client, endpoint)).None?;
    assert t.newRequest(POST, RequestUrl(client, endpoint)).None?;
    assert t.newRequest(PUT, RequestUrl(client, endpoint)).None?;
    assert t.newRequest(DELETE, RequestUrl(client, endpoint)).None?;
  }

  /**
   A body-read failure is an error for Get even with a 2xx status, while
   Delete ignores it on a 2xx status.
   */
  lemma ReadFailureOnlyMattersForReaders(client: Client, endpoint: string, t: Transport, status: int, data: seq<byte>, e: string)
    requires t.newRequest(GET, RequestUrl(client, endpoint)).None?
    requires t.newRequest(DELETE, RequestUrl(client, endpoint)).None?
    requires forall n, q :: t.send(n, q) == Response(status, ReadOutcome(data, Some(e)))
    requires IsSuccessStatus(status)
    ensures Get(client, endpoint, t).result == Failure(ReadFailed(e))
    ensures Delete(client, endpoint, t).result == Success(())
  {
  }

  /** The bytes of the text "not found". */
  const NotFoundText: seq<byte> := [110, 111, 116, 32, 102, 111, 117, 110, 100]

  /** A 404 reply with body "not found" surfaces both the status and the body text. */
  lemma NotFoundScenario(client: Client, endpoint: string)
    ensures var t := Transport((v, u) => None, (n, q) => Response(404, ReadOutcome(NotFoundText, None)));
      Get(client, endpoint, t).result == Failure(StatusError(404, NotFoundText)) &&
      Delete(client, endpoint, t).result == Failure(StatusError(404, NotFoundText))
  {
  }

  /** A 204 reply with an empty body is a success returning no bytes. */
  lemma NoContentScenario(client: Client, endpoint: string)
    ensures var t := Transport((v, u) => None, (n, q) => Response(204, ReadOutcome([], None)));
      Get(client, endpoint, t).result == Success([]) &&
      Delete(client, endpoint, t).result == Success(())
  {
  }
}

=== FILE: config.dfy ===
/**
 Loading and validating the harness configuration file (`loadConfig` and
 `checkFilePermissions` in main.go).

 The file system, the user's home directory, `filepath.Join` and the JSON
 decoder are not modelled; they are oracles carried in an `Env`, so that
 loading becomes a pure function of the environment and the path.
 */
module ConfigLoader {
  import opened Wrappers
  import opened Primitives

  /** The nine Unix permission bits that `FileMode.Perm()` keeps. */
  type Perm = x: nat | x < 512

  /** Owner read and write, nothing else: octal 0600. */
  const OwnerReadWrite: Perm := 6 * 64

  /**
   The decoded configuration record; absent JSON fields decode to "" and 0,
   and JSON decoding rejects a timeout wider than 64 bits.
   */
  datatype Config = Config(apiSecret: string, baseUrl: string, username: string, timeout: Int64)

  /** An operating-system error, known only by its message. */
  type OsError = string

  /** What `os.Stat` reports: an error, or the file's mode word. */
  datatype StatResult = StatError(err: OsError) | FileInfo(mode: nat)

  /**
   The environment `loadConfig` consults: the result of `os.UserHomeDir`,
   `filepath.Join`, `os.Stat`, `ioutil.ReadFile` and `json.Unmarshal` into a
   `Config`.
   */
  datatype Env = Env(
    home: Result<string, OsError>,
    join: (string, string) -> string,
    stat: string -> StatResult,
    readFile: string -> Result<seq<byte>, OsError>,
    decode: seq<byte> -> Result<Config, string>)

  /** One error per stage of `loadConfig`, in the order the stages run. */
  datatype ConfigError =
    | HomeDirUnavailable(err: OsError)
    | CannotStat(err: OsError)
    | WrongPermissions(perm: Perm)
    | CannotRead(err: OsError)
    | CannotParse(err: string)
    | MissingApiSecret
    | MissingBaseUrl

  /**
   `info.Mode().Perm()`, that is `mode & 0777`: the low nine bits. On a
   non-negative mode word this is the remainder modulo 512.
   */
  function PermBits(mode: nat): (p: Perm)
    ensures (mode - p) % 512 == 0
    ensures mode < 512 ==> p == mode
  {
    mode % 512
  }

  /** A path that `loadConfig` rewrites: non-empty and starting with `~`. */
  predicate HasTilde(path: string)
  {
    |path| > 0 && path[0] == '~'
  }

  /** Home-directory expansion; the home directory is only asked for when needed. */
  function ExpandPath(env: Env, path: string): (r: Result<string, ConfigError>)
    ensures !HasTilde(path) ==> r == Success(path)
    ensures HasTilde(path) ==> (r.Success? <==> env.home.Success?)
    ensures HasTilde(path) && r.Success? ==> r.value == env.join(env.home.value, path[1..])
    ensures r.Failure? ==> r.error == HomeDirUnavailable(env.home.error)
  {
    if HasTilde(path) then
      match env.home
      case Success(h) => Success(env.join(h, path[1..]))
      case Failure(e) => Failure(HomeDirUnavailable(e))
    else
      Success(path)
  }

  /** Required-field validation: the secret is checked before the base URL. */
  function Validate(c: Config): (r: Result<Config, ConfigError>)
    ensures r.Success? <==> c.apiSecret != "" && c.baseUrl != ""
    ensures r.Success? ==> r.value == c
    ensures c.apiSecret == "" ==> r == Failure(MissingApiSecret)
    ensures r == Failure(MissingBaseUrl) <==> c.apiSecret != "" && c.baseUrl == ""
  {
    if c.apiSecret == "" then Failure(MissingApiSecret)
    else if c.baseUrl == "" then Failure(MissingBaseUrl)
    else Success(c)
  }

  /**
   The position of the stage that produces each error: expansion 0, stat 1,
   permissions 2, read 3, parse 4, secret 5, base URL 6.
   */
  function StageOf(e: ConfigError): (n: nat)
  {
    match e
    case HomeDirUnavailable(_) => 0
    case CannotStat(_) => 1
    case WrongPermissions(_) => 2
    case CannotRead(_) => 3
    case CannotParse(_) => 4
    case MissingApiSecret => 5
    case MissingBaseUrl => 6
  }

  /** The number of stages of `loadConfig`. */
  const StageCount: nat := 7

  /**
   Stages 0 .. n-1 of loading `path` all accept, each judged on what the
   environment reports for it; stage k is only consulted when n > k, and then
   every earlier stage has accepted.
   */
  ghost predicate PassesFirst(env: Env, path: string, n: nat)
    ensures PassesFirst(env, path, n) && n > 0 ==> PassesFirst(env, path, n - 1)
  {
    && (n > 0 ==> ExpandPath(env, path).Success?)
    && (n > 1 ==> env.stat(ExpandPath(env, path).value).FileInfo?)
    && (n > 2 ==> PermBits(env.stat(ExpandPath(env, path).value).mode) == OwnerReadWrite)
    && (n > 3 ==> env.readFile(ExpandPath(env, path).value).Success?)
    && (n > 4 ==> env.decode(env.readFile(ExpandPath(env, path).value).value).Success?)
    && (n > 5 ==> env.decode(env.readFile(ExpandPath(env, path).value).value).value.apiSecret != "")
    && (n > 6 ==> env.decode(env.readFile(ExpandPath(env, path).value).value).value.baseUrl != "")
  }

  /** The record the decoder produces from the resolved file, when every stage up to parsing succeeds. */
  ghost function Decoded(env: Env, path: string): (o: Option<Config>)
  {
    if PassesFirst(env, path, 5) then
      var p := ExpandPath(env, path).value;
      Some(env.decode(env.readFile(p).value).value)
    else None
  }

  /** `loadConfig`: expand, stat, check permissions, read, parse, validate. */
  function LoadConfig(env: Env, path: string): (r: Result<Config, ConfigError>)
    ensures r.Success? <==> PassesFirst(env, path, StageCount)
    ensures r.Failure? ==> PassesFirst(env, path, StageOf(r.error)) && !PassesFirst(env, path, StageOf(r.error) + 1)
    ensures r.Success? ==> r.value.apiSecret != "" && r.value.baseUrl != "" && Decoded(env, path) == Some(r.value)
    ensures r.Failure? && r.error.WrongPermissions? ==>
      r.error.perm != OwnerReadWrite &&
      env.stat(ExpandPath(env, path).value) == FileInfo(env.stat(ExpandPath(env, path).value).mode) &&
      r.error.perm == PermBits(env.stat(ExpandPath(env, path).value).mode)
    ensures r.Failure? && r.error.HomeDirUnavailable? ==> env.home == Failure(r.error.err)
    ensures r.Failure? && r.error.CannotStat? ==>
      env.stat(ExpandPath(env, path).value) == StatError(r.error.err)
    ensures r.Failure? && r.error.CannotRead? ==>
      env.readFile(ExpandPath(env, path).value) == Failure(r.error.err)
    ensures r.Failure? && r.error.CannotParse? ==>
      env.decode(env.readFile(ExpandPath(env, path).value).value) == Failure(r.error.err)
  {
    match ExpandPath(env, path)
    case Failure(e) => Failure(e)
    case Success(p) =>
      match env.stat(p)
      case StatError(e) => Failure(CannotStat(e))
      case FileInfo(mode) =>
        if PermBits(mode) != OwnerReadWrite then Failure(WrongPermissions(PermBits(mode)))
        else
          match env.readFile(p)
          case Failure(e) => Failure(CannotRead(e))
          case Success(data) =>
            match env.decode(data)
            case Failure(e) => Failure(CannotParse(e))
            case Success(c) => Validate(c)
  }

  /**
   A path written as `~` followed by `rest` loads exactly like the joined
   path, as long as the joined path does not itself start with `~`.
   */
  lemma {:induction false} TildeLoadsJoinedPath(env: Env, rest: string, h: string)
    requires env.home == Success(h)
    requires !HasTilde(env.join(h, rest))
    ensures ExpandPath(env, "~" + rest) == Success(env.join(h, rest))
    ensures LoadConfig(env, "~" + rest) == LoadConfig(env, env.join(h, rest))
  {
    var path := "~" + rest;
    assert path[0] == '~' && path[1..] == rest;
  }

  /**
   A permission failure is decided before the file is read: whatever the
   file holds and however it decodes, the result is the same.
   */
  lemma WrongPermissionsIgnoreContent(env: Env, path: string,
                                      readFile: string -> Result<seq<byte>, OsError>,
                                      decode: seq<byte> -> Result<Config, string>)
    requires LoadConfig(env, path).Failure? && LoadConfig(env, path).error.WrongPermissions?
    ensures LoadConfig(env.(readFile := readFile, decode := decode), path) == LoadConfig(env, path)
  {
    var env' := env.(readFile := readFile, decode := decode);
    assert ExpandPath(env', path) == ExpandPath(env, path);
  }

  /** A record missing both required fields is reported as missing the secret. */
  lemma SecretCheckedBeforeBaseUrl(env: Env, path: string)
    requires PassesFirst(env, path, 5)
    requires Decoded(env, path).value.apiSecret == "" && Decoded(env, path).value.baseUrl == ""
    ensures LoadConfig(env, path) == Failure(MissingApiSecret)
  {
  }

  /** The outcome of `checkFilePermissions`. */
  datatype PermissionCheck = PermissionsOk | PermissionStatFailed(err: OsError) | PermissionsTooOpen

  /**
   `checkFilePermissions`: stat the path as given (no `~` expansion) and
   insist on 0600, except on Windows where any mode passes.
   */
  function CheckFilePermissions(env: Env, path: string, onWindows: bool): (r: PermissionCheck)
    ensures r != PermissionsOk <==>
      env.stat(path).StatError? || (PermBits(env.stat(path).mode) != OwnerReadWrite && !onWindows)
    ensures r.PermissionStatFailed? <==> env.stat(path).StatError?
    ensures r.PermissionStatFailed? ==> r.err == env.stat(path).err
  {
    match env.stat(path)
    case StatError(e) => PermissionStatFailed(e)
    case FileInfo(mode) =>
      if PermBits(mode) != OwnerReadWrite && !onWindows then PermissionsTooOpen else PermissionsOk
  }

  /**
   Off Windows, `checkFilePermissions` on the expanded path accepts exactly
   when `loadConfig` gets past its permission stage. `loadConfig` itself has
   no Windows exception.
   */
  lemma PermissionCheckMatchesLoader(env: Env, path: string, p: string)
    requires ExpandPath(env, path) == Success(p)
    ensures CheckFilePermissions(env, p, false) == PermissionsOk <==> PassesFirst(env, path, 3)
  {
  }
}

=== FILE: dispatch.dfy ===
/**
 The command-line entry point (`main` and `verifyConnectivity` in main.go):
 a linear decision procedure over the already-parsed global flags.

 Flag parsing, printing and `os.Exit` are not modelled; an `Outcome` records
 the exit status, whether `loadConfig` was called (whatever it returned),
 whether usage was printed, what ran, and which error was reported on which stream.
 */
module Dispatcher {
  import opened Wrappers
  import opened ConfigLoader
  import opened Workflows

  /** The subcommand handled by the built-in connectivity check rather than the registry. */
  const VerifyName: string := "verify"

  /** The value of `--config` / `-c` when neither is given. */
  const DefaultConfigPath: string := "~/.cyberark_api"

  /** The global command line after `flag.Parse`: config path, help flag, positional arguments. */
  datatype CommandLine = CommandLine(configPath: string, showHelp: bool, args: seq<string>)

  /**
   Behaviour the dispatcher calls into but this model does not contain: a
   handler's `Execute` (its error message, or None for success) and whether
   the `verify` subcommand's own flag set saw `-h` / `--help`.
   */
  datatype Workers = Workers(
    execute: (Handler, Config, seq<string>) -> Option<string>,
    verifyWantsHelp: seq<string> -> bool)

  datatype Stream = Stdout | Stderr

  /** The errors `main` reports before exiting with status 1. */
  datatype DispatchError =
    | MissingWorkflowName
    | ConfigLoadFailed(cause: ConfigError)
    | UnknownWorkflow(name: string)
    | WorkflowFailed(message: string)

  /** An error report and the stream it is written to. */
  datatype Diagnostic = Diagnostic(stream: Stream, error: DispatchError)

  /** What ran: nothing, the built-in check (with its output lines), or a registered handler. */
  datatype Action =
    | NothingRan
    | RanVerify(output: seq<string>)
    | RanHandler(name: string, handler: Handler, args: seq<string>)

  /**
   What one run of `main` did. `configRead` says whether `loadConfig` was
   called at all, not whether it succeeded.
   */
  datatype Outcome = Outcome(
    exitCode: int,
    configRead: bool,
    usagePrinted: bool,
    action: Action,
    diagnostic: Option<Diagnostic>)

  /** The line `verifyConnectivity` prints in place of the secret. */
  const RedactedSecretLine: string := "API Secret: [REDACTED]"

  /**
   The lines `verifyConnectivity` prints. It shows the base URL and a fixed
   placeholder for the secret, and it always returns nil.
   */
  function VerifyConnectivity(config: Config, wantsHelp: bool): (lines: seq<string>)
    ensures !wantsHelp ==> "Base URL: " + config.baseUrl in lines && RedactedSecretLine in lines
  {
    if wantsHelp then
      [ "Verify Workflow - Test CyberArk API connectivity",
        "",
        "Usage:",
        "  cyberark verify [options]",
        "",
        "Options:",
        "  -h, --help    Show this help message" ]
    else
      [ "Verifying CyberArk API connectivity...",
        "Base URL: " + config.baseUrl,
        RedactedSecretLine,
        "",
        "✓ Configuration loaded successfully",
        "✓ API credentials present",
        "",
        "Note: Actual API connectivity test not yet implemented" ]
  }

  /** The connectivity check's output does not depend on the secret at all. */
  lemma VerifyNeverShowsSecret(config: Config, secret: string, wantsHelp: bool)
    ensures VerifyConnectivity(config.(apiSecret := secret), wantsHelp) == VerifyConnectivity(config, wantsHelp)
  {
  }

  /** Without `--config` or `-c`, the path `~/.cyberark_api` is loaded from the home directory. */
  lemma DefaultConfigUnderHome(env: Env, h: string)
    requires env.home == Success(h)
    ensures ExpandPath(env, DefaultConfigPath) == Success(env.join(h, "/.cyberark_api"))
  {
  }

  /** `main`, after global flag parsing, with the registry filled in by `init`. */
  function Main(cli: CommandLine, env: Env, reg: Registry, w: Workers): (r: Outcome)
    ensures r.exitCode == 0 || r.exitCode == 1
    ensures r.exitCode == 0 <==> r.diagnostic.None?
    ensures r.configRead <==> !cli.showHelp && |cli.args| > 0
    ensures !r.action.NothingRan? ==> r.configRead && LoadConfig(env, cli.configPath).Success?
    ensures r.action.RanVerify? ==> cli.args[0] == VerifyName
    ensures r.action.RanHandler? ==>
      cli.args[0] != VerifyName && cli.args[0] in reg &&
      r.action == RanHandler(cli.args[0], reg[cli.args[0]], cli.args[1..])
  {
    if cli.showHelp then
      Outcome(0, false, true, NothingRan, None)
    else if |cli.args| == 0 then
      Outcome(1, false, true, NothingRan, Some(Diagnostic(Stdout, MissingWorkflowName)))
    else
      var name := cli.args[0];
      var rest := cli.args[1..];
      match LoadConfig(env, cli.configPath)
      case Failure(e) =>
        Outcome(1, true, false, NothingRan, Some(Diagnostic(Stderr, ConfigLoadFailed(e))))
      case Success(config) =>
        if name == VerifyName then
          Outcome(0, true, false, RanVerify(VerifyConnectivity(config, w.verifyWantsHelp(rest))), None)
        else
          match Lookup(reg, name)
          case None =>
            Outcome(1, true, true, NothingRan, Some(Diagnostic(Stderr, UnknownWorkflow(name))))
          case Some(h) =>
            match w.execute(h, config, rest)
            case Some(err) =>
              Outcome(1, true, false, RanHandler(name, h, rest), Some(Diagnostic(Stderr, WorkflowFailed(err))))
            case None =>
              Outcome(0, true, false, RanHandler(name, h, rest), None)
  }

  /**
   With the help flag the process prints usage and exits 0; nothing about the
   environment, the subcommand, the registry or the workflows matters.
   */
  lemma HelpNeverLoadsConfig(cli: CommandLine, env: Env, env': Env, reg: Registry, reg': Registry,
                             w: Workers, w': Workers, args': seq<string>)
    requires cli.showHelp
    ensures Main(cli, env, reg, w) == Main(cli.(args := args'), env', reg', w')
    ensures Main(cli, env, reg, w) == Outcome(0, false, true, NothingRan, None)
  {
  }

  /** Without a workflow name: exit 1, usage printed, `loadConfig` never called, nothing run. */
  lemma MissingNameFails(cli: CommandLine, env: Env, reg: Registry, w: Workers)
    requires !cli.showHelp && cli.args == []
    ensures var r := Main(cli, env, reg, w);
      r.exitCode == 1 && !r.configRead && r.usagePrinted && r.action == NothingRan &&
      r.diagnostic == Some(Diagnostic(Stdout, MissingWorkflowName))
  {
  }

  /**
   A configuration that fails to load ends the run with status 1 before the
   subcommand is looked at, so even an unknown name reports the load error.
   */
  lemma ConfigFailureStopsDispatch(cli: CommandLine, env: Env, reg: Registry, w: Workers, reg': Registry, w': Workers)
    requires !cli.showHelp && |cli.args| > 0
    requires LoadConfig(env, cli.configPath).Failure?
    ensures var r := Main(cli, env, reg, w);
      r.exitCode == 1 && r.action == NothingRan &&
      r.diagnostic == Some(Diagnostic(Stderr, ConfigLoadFailed(LoadConfig(env, cli.configPath).error))) &&
      r == Main(cli, env, reg', w')
  {
  }

  /**
   `verify` always runs the built-in check and exits 0, whatever the
   registry holds under that name.
   */
  lemma VerifyIsBuiltIn(cli: CommandLine, env: Env, reg: Registry, w: Workers, h: Handler)
    requires !cli.showHelp && |cli.args| > 0 && cli.args[0] == VerifyName
    requires LoadConfig(env, cli.configPath).Success?
    ensures var r := Main(cli, env, reg, w);
      r.exitCode == 0 && r.action.RanVerify? &&
      r == Main(cli, env, Register(reg, VerifyName, h), w)
  {
  }

  /** A name that is neither `verify` nor registered: exit 1, usage printed, no handler runs. */
  lemma UnknownWorkflowRunsNothing(cli: CommandLine, env: Env, reg: Registry, w: Workers)
    requires !cli.showHelp && |cli.args| > 0
    requires cli.args[0] != VerifyName && cli.args[0] !in reg
    requires LoadConfig(env, cli.configPath).Success?
    ensures var r := Main(cli, env, reg, w);
      r.exitCode == 1 && r.usagePrinted && r.action == NothingRan &&
      r.diagnostic == Some(Diagnostic(Stderr, UnknownWorkflow(cli.args[0])))
  {
  }

  /**
   A registered handler receives the loaded configuration and exactly the
   arguments after the subcommand; the exit status is 1 exactly when its
   `Execute` returns an error.
   */
  lemma HandlerExitStatus(cli: CommandLine, env: Env, reg: Registry, w: Workers)
    requires !cli.showHelp && |cli.args| > 0
    requires cli.args[0] != VerifyName && cli.args[0] in reg
    requires LoadConfig(env, cli.configPath).Success?
    ensures var r := Main(cli, env, reg, w);
      var err := w.execute(reg[cli.args[0]], LoadConfig(env, cli.configPath).value, cli.args[1..]);
      r.action == RanHandler(cli.args[0], reg[cli.args[0]], cli.args[1..]) &&
      (r.exitCode == 1 <==> err.Some?) &&
      (err.Some? ==> r.diagnostic == Some(Diagnostic(Stderr, WorkflowFailed(err.value))))
  {
  }

  /** With the shipped registry, `list-accounts` reaches the list-accounts handler. */
  lemma ListAccountsDispatches(cli: CommandLine, env: Env, w: Workers)
    requires !cli.showHelp && |cli.args| > 0 && cli.args[0] == "list-accounts"
    requires LoadConfig(env, cli.configPath).Success?
    ensures Main(cli, env, StartupRegistry(), w).action == RanHandler("list-accounts", ListAccounts, cli.args[1..])
  {
  }
}

=== FILE: primitives.dfy ===
/**
 Go's fixed-width values as this model uses them, defined once for the
 configuration loader and the API client.
 */
module Primitives {

  /**
   The largest value of Go's `int64`, and of `int` on 64-bit platforms, the
   platforms this model assumes.
   */
  const MaxInt64: int := 0x7FFF_FFFF_FFFF_FFFF

  /** Go's `int64` (and `time.Duration`), and `int` on 64-bit platforms. */
  type Int64 = x: int | -MaxInt64 - 1 <= x <= MaxInt64

  /** A positive 64-bit `int`. */
  type PositiveInt64 = x: Int64 | x > 0 witness 30

  /** An element of Go's `[]byte`. */
  type byte = x: int | 0 <= x < 256
}

=== FILE: workflows.dfy ===
/**
 The workflow registry (`WorkflowRegistry` and `RegisterWorkflow` in
 main.go): a map from subcommand name to handler with last-write-wins
 registration, filled by the packages' `init` functions before `main` runs.
 */
module Workflows {
  import opened Wrappers

  /**
   A workflow handler. Go only asks for `Execute` and `Help`; the model keeps
   the handler's identity and its help text, and leaves what `Execute` does
   to the dispatcher's oracle.
   */
  datatype Handler = Handler(kind: string, help: string)

  /** The registry: subcommand name to handler. */
  type Registry = map<string, Handler>

  /** The registry before any `init` function has run. */
  const EmptyRegistry: Registry := map[]

  /** `RegisterWorkflow(name, workflow)`: an unconditional overwrite. */
  function Register(reg: Registry, name: string, h: Handler): (r: Registry)
    ensures name in r && r[name] == h
    ensures r.Keys == reg.Keys + {name}
    ensures forall k :: k in reg && k != name ==> r[k] == reg[k]
  {
    reg[name := h]
  }

  /** The "comma ok" lookup `WorkflowRegistry[name]`. */
  function Lookup(reg: Registry, name: string): (r: Option<Handler>)
    ensures r.Some? <==> name in reg
    ensures r.Some? ==> r.value == reg[name]
  {
    if name in reg then Some(reg[name]) else None
  }

  /** Looking up the name just registered gives its handler; other names are unaffected. */
  lemma LookupAfterRegister(reg: Registry, name: string, h: Handler, other: string)
    ensures Lookup(Register(reg, name, h), name) == Some(h)
    ensures other != name ==> Lookup(Register(reg, name, h), other) == Lookup(reg, other)
  {
  }

  /** Registering a name twice leaves only the second handler. */
  lemma RegisterLastWins(reg: Registry, name: string, first: Handler, second: Handler)
    ensures Register(Register(reg, name, first), name, second) == Register(reg, name, second)
  {
  }

  /** Registrations under different names may happen in either order. */
  lemma RegisterCommutes(reg: Registry, a: string, ha: Handler, b: string, hb: Handler)
    requires a != b
    ensures Register(Register(reg, a, ha), b, hb) == Register(Register(reg, b, hb), a, ha)
  {
  }

  /** One `RegisterWorkflow` call made by an `init` function. */
  datatype Registration = Registration(name: string, handler: Handler)

  /** The registry after the calls `regs` run in order, starting from `reg`. */
  function RegisterAll(reg: Registry, regs: seq<Registration>): (r: Registry)
    ensures r.Keys == reg.Keys + set i | 0 <= i < |regs| :: regs[i].name
    decreases |regs|
  {
    if regs == [] then reg
    else RegisterAll(Register(reg, regs[0].name, regs[0].handler), regs[1..])
  }

  /** The handler of the last call in `regs` that registers `name`, if any. */
  function LastRegistered(regs: seq<Registration>, name: string): (r: Option<Handler>)
    ensures r.Some? <==> exists i :: 0 <= i < |regs| && regs[i].name == name
    ensures r.Some? ==>
      exists i :: && 0 <= i < |regs| && regs[i].name == name && r.value == regs[i].handler
                  && (forall j :: i < j < |regs| ==> regs[j].name != name)
  {
    if regs == [] then None
    else if regs[|regs| - 1].name == name then Some(regs[|regs| - 1].handler)
    else LastRegistered(regs[..|regs| - 1], name)
  }

  /**
   Running the calls in order and then looking a name up gives the handler
   of the last call for that name, or what the starting registry held.
   */
  lemma {:induction false} RegisterAllLookup(reg: Registry, regs: seq<Registration>, name: string)
    ensures Lookup(RegisterAll(reg, regs), name) ==
      match LastRegistered(regs, name)
      case Some(h) => Some(h)
      case None => Lookup(reg, name)
    decreases |regs|
  {
    if regs != [] {
      var reg' := Register(reg, regs[0].name, regs[0].handler);
      RegisterAllLookup(reg', regs[1..], name);
      LastRegisteredDropFirst(regs, name);
    }
  }

  /** The last registration of `name` either lies after the first call or is the first call. */
  lemma {:induction false} LastRegisteredDropFirst(regs: seq<Registration>, name: string)
    requires regs != []
    ensures LastRegistered(regs, name) ==
      match LastRegistered(regs[1..], name)
      case Some(h) => Some(h)
      case None => if regs[0].name == name then Some(regs[0].handler) else None
    decreases |regs|
  {
    if |regs| > 1 {
      var tail := regs[1..];
      assert tail[..|tail| - 1] == regs[..|regs| - 1][1..];
      if regs[|regs| - 1].name != name {
        LastRegisteredDropFirst(regs[..|regs| - 1], name);
      }
    }
  }

  /** The one workflow this repository ships, registered by list_accounts.go. */
  const ListAccounts: Handler := Handler("ListAccountsWorkflow", "List accounts from CyberArk")

  /** The `init`-time registrations of the shipped workflows. */
  const StartupRegistrations: seq<Registration> := [Registration("list-accounts", ListAccounts)]

  /** The registry `main` sees. */
  function StartupRegistry(): (r: Registry)
    ensures r.Keys == {"list-accounts"}
    ensures r["list-accounts"] == ListAccounts
    ensures "verify" !in r
  {
    var first := StartupRegistrations[0];
    var after := Register(EmptyRegistry, first.name, first.handler);
    assert StartupRegistrations[1..] == [];
    assert RegisterAll(EmptyRegistry, StartupRegistrations) == RegisterAll(after, []) == after;
    RegisterAll(EmptyRegistry, StartupRegistrations)
  }
}

=== FILE: wrappers.dfy ===
/**
 This module provides the failure-carrying datatypes the rest of the model
 uses in place of Go's `(value, error)` pairs and nil pointers.
 */
module Wrappers {

  /** A value that may be absent: Go's nil pointer or nil error. */
  datatype Option<+T> = None | Some(value: T)

  /** Either a computed value or the error that stopped the computation. */
  datatype Result<+R, +E> = Success(value: R) | Failure(error: E)

}
